=== FILE: README.md ===
# Group-purchase rooms of the GroupBuy shop, in Dafny

This project models the group-buying engine of the GroupBuy Django shop. A
buyer opens a *room* for a product. Other buyers join it to buy at the
product's group price. Each join takes one unit of stock and records an
order. A room closes when it is full or the stock runs out, and then the
participants get a completion mail.

The model has five modules:

- `Products` (products/models.py): the `Product` record is a class. Its
  prices and thresholds are read-only here. Its stock, `quantity`, is a
  signed integer that the join view decrements in place. This module also
  has cart lines and cart totals.
- `Orders` (orders/models.py): the room (`GroupPurchase`) and the `Order`,
  both classes whose methods update their fields in place. The room's
  mutable fields are also given as a value, `RoomState`. The pure functions
  `Admitted` and `Closed` give the effect of `add_participant` and
  `close_purchase`, so that properties can be stated across several calls.
- `RoomRules` (the decisions in orders/views.py, written as functions):
  - the availability gate and its cache;
  - the join sequence, stepping a `RoomWorld` (room fields, product stock,
    cache) forward;
  - the guards in front of an individual order and in front of room creation;
  - the room directory and the payment-page total.
- `OrderViews`: a `Shop` class holding the rooms table, the orders table,
  the cache and a mail outbox. Its methods are the view handlers. Each
  handler's postcondition ties its outcome and the new state to the
  `RoomRules` function. Every handler keeps room ids unique, as the table's
  auto-incremented primary key does.
- `Wrappers`: `Option`.

Money is held exactly as integer cents, because every price field is a
Decimal with two places. Time is an integer number of seconds. A cache entry
written at time `t` with a timeout of 60 is used while `now < t + 60`.

Where the code does something other than a reader of its design would expect,
the model follows the code:

- Creating a room does not check that the product has a group price. The
  creator is not made a participant.
- The join view has no check of its own on `is_active`. Only the cached
  availability gate stands in front of a join. Within the cache's 60 seconds,
  a join on a room that has just closed is still charged: the user is not
  added, yet a unit of stock is taken and an order is created. This can drive
  the stock below zero (`StaleCacheChargesClosedRoom`, `ThreeBuyersFillRoom`).
  Such a join on a room that is full or out of stock counts as completing it,
  so the participants get the completion mail once more for every such join
  (`StaleAnswerChargesInactiveRoom`, `Shop.JoinGroupPurchase`).
- The order a join creates has no order type. Saving it therefore charges
  the list price, while the payment page shows the group price
  (`JoinOrderPaymentDiffers`).
- With a group price of 0.00, a join adds the user and takes stock, but
  returns before the order and before the closing check. A cached "available"
  answer can then let the room exceed its maximum (`ZeroGroupPriceOverAdmits`).
- The room model as stored has no `is_private` column, but room creation
  passes one and the public directory filters on it. Without the column, the
  creation call raises an error, which the view's catch-all handler turns
  into a redirect, so no room is ever created; and the directory listing
  fails. The model assumes the column exists, as a boolean fixed at creation,
  and models the creation and the listing that the views evidently intend.
- `is_expired` is not called by any view, so expiration never closes a room.
  An individual order does not take stock.
- The thresholds are non-negative integers, and nothing relates
  `min_participants` to `max_participants`.

## Model

| member | source | states |
|---|---|---|
| `Products.Product.constructor` | GroupBuy/products/models.py:8-29 | a product keeps the given prices, optional group price, non-negative thresholds and signed stock |
| `Products.Product.WithDefaults` | GroupBuy/products/models.py:21-22 | a product saved without thresholds has minimum 2 and maximum 5 participants |
| `Products.NewCartItem` | GroupBuy/products/models.py:49 | a cart line created without a quantity holds one unit |
| `Products.ItemTotal` | GroupBuy/products/models.py:54-55 | a line of no units costs 0, and a line of a non-negatively priced product costs at least 0; `ItemTotalIsUnitSum` ties it to one-unit lines |
| `Products.ItemTotalIsUnitSum` | GroupBuy/products/models.py:54-55 | a cart line of n units costs the same as n one-unit lines of the same product |
| `Products.CartTotal` | GroupBuy/products/models.py:64-65 | an empty cart totals 0 |
| `Products.CartTotalAppend` | GroupBuy/products/models.py:64-65 | adding a line raises the cart total by exactly that line's total |
| `Products.CartTotalConcat` | GroupBuy/products/models.py:64-65 | the total of two carts put together is the sum of their totals |
| `Products.CartTotalOrderIndependent` | GroupBuy/products/models.py:59-65 | any arrangement of the same lines has the same total, as the lines are an unordered relation |
| `Orders.GroupPurchase.constructor` | GroupBuy/orders/models.py:7-12 | a new room has no participants, is active, has total 0.00 and keeps the given product, privacy flag and expiration |
| `Orders.GroupUnitPrice` | GroupBuy/orders/models.py:15 | the per-unit price is either the list price or the set group price |
| `Orders.RoomTotal` | GroupBuy/orders/models.py:14-16 | an empty room totals 0 |
| `Orders.GroupPurchase.CalculateTotalPrice` | GroupBuy/orders/models.py:14-16 | the room total is the participant count times the room's per-unit price |
| `Orders.RoomTotalFallsBackToPrice` | GroupBuy/orders/models.py:14-16 | the per-unit price is the group price when set and non-zero; a missing or 0.00 group price falls back to the list price |
| `Orders.GroupPurchase.AddParticipant` | GroupBuy/orders/models.py:18-22 | the room's new state is `Admitted` of its old state |
| `Orders.AdmitNewUser` | GroupBuy/orders/models.py:18-22 | an active room given a new user gains exactly that user, stays active, and its total equals the new count times the unit price |
| `Orders.AdmitIsNoOp` | GroupBuy/orders/models.py:19 | an inactive room, or a user already present, leaves participants, total and active flag unchanged |
| `Orders.AdmitIdempotent` | GroupBuy/orders/models.py:18-22 | adding the same user twice has the effect of adding them once |
| `Orders.AdmitKeepsPriceConsistent` | GroupBuy/orders/models.py:18-22 | adding a user keeps the stored total equal to count times unit price |
| `Orders.GroupPurchase.ClosePurchase` | GroupBuy/orders/models.py:24-27 | the room's new state is `Closed` of its old state |
| `Orders.CloseIff` | GroupBuy/orders/models.py:24-27 | after closing, the room is active iff it was active and below the minimum; participants and total are unchanged |
| `Orders.NeverReactivates` | GroupBuy/orders/models.py:18-27 | neither adding a participant nor closing makes an inactive room active |
| `Orders.GroupPurchase.IsExpired` | GroupBuy/orders/models.py:28-29 | only a room with an expiration time can be expired; `ExpiryIsStrict` and `ExpiryIsPermanent` state exactly when |
| `Orders.ExpiryIsStrict` | GroupBuy/orders/models.py:28-29 | a room without an expiration time never expires; with one, it is expired exactly when now is strictly after it |
| `Orders.ExpiryIsPermanent` | GroupBuy/orders/models.py:28-29 | once expired, a room is expired at every later time |
| `Orders.Order.constructor` | GroupBuy/orders/models.py:34-46 | a new order keeps its user, product, quantity, type, optional room link, participant count and the total it was given, before any save |
| `Orders.OrderPrice` | GroupBuy/orders/models.py:47-58 | an order of no units is saved at 0; `OrderPriceByType` states the price per type |
| `Orders.Order.Save` | GroupBuy/orders/models.py:47-58 | saving replaces any given total with the total its type calls for |
| `Orders.OrderPriceByType` | GroupBuy/orders/models.py:47-58 | a GROUP order costs its quantity times the room's per-unit price, as a room with that many participants would total; any other type, empty included, costs quantity times the list price |
| `RoomRules.Availability` | GroupBuy/orders/views.py:14-27 | on a cache hit the cached answer is returned whatever the live state and the cache is kept; on a miss the answer is stock > 0 and count < maximum, and it is cached for 60 s; a negative answer deactivates the room; stock and participants are untouched |
| `RoomRules.GateNeverActivates` | GroupBuy/orders/views.py:23-25 | the gate never activates a room, and after a negative answer the room is inactive |
| `RoomRules.IndividualOrderDecision` | GroupBuy/orders/views.py:40-64 | an individual order goes ahead iff the user is signed in, has a buyer profile, the stock is positive and the form is submitted; it is refused for stock iff stock <= 0 |
| `RoomRules.RoomCreationDecision` | GroupBuy/orders/views.py:101-129 | a room is created iff the user is signed in, has a buyer profile, the product exists with stock >= 2 and the form is submitted; stock <= 0 is refused as out of stock, stock 1 as insufficient |
| `RoomRules.Join` | GroupBuy/orders/views.py:156-223 | a missing group price refuses with no change; stock drops by one exactly on the order and zero-price paths, only for a new signed-in user; the user is added exactly when charged on an active room; a refused gate leaves the room inactive; an order closes the room iff it is full or out of stock; no join reactivates a room or breaks price consistency |
| `RoomRules.JoinFollowsGate` | GroupBuy/orders/views.py:176-193 | with a group price set: a join is refused as unavailable iff the gate answers no; after a yes, it is refused iff the visitor is anonymous or already a participant, and otherwise charged whether or not the room is still active; a charged join stops before its order iff the group price is 0.00; the cache is always the one the gate left, and a join that is not charged leaves exactly the gate's world |
| `RoomRules.StaleAnswerChargesInactiveRoom` | GroupBuy/orders/views.py:176-215 | on an inactive room with a cached "available", any new user with a non-zero group price gets an order and takes a unit of stock, while the room's participants, total and closed state stay as they were; the join reports completion, and so mails the participants again, iff the room is full or the stock is used up |
| `RoomRules.JoinKeepsWithinCapacity` | GroupBuy/orders/views.py:176-208 | with a non-zero group price, a join keeps the count within the maximum and leaves no cached "available" on a full active room |
| `RoomRules.RunJoinsKeepsWithinCapacity` | GroupBuy/orders/views.py:176-208 | the capacity invariant holds after any sequence of joins |
| `RoomRules.CapacityNeverExceeded` | GroupBuy/orders/views.py:206-208 | from a new room with nothing cached, sequential joins never take the count above the maximum, given a non-zero group price |
| `RoomRules.ClosedRoomStaysClosed` | GroupBuy/orders/views.py:176-208 | after any sequence of joins, an inactive room keeps its participants and total and stays inactive |
| `RoomRules.RunJoinsKeepsPriceConsistent` | GroupBuy/orders/views.py:184-187 | the stored total stays equal to count times unit price through any sequence of joins |
| `RoomRules.RejoinChangesNothing` | GroupBuy/orders/views.py:180-182 | an existing participant's join creates no order and leaves exactly the world the availability gate leaves (the unchanged world when no group price is set): participants, total and stock stay as they were |
| `RoomRules.JoinTwiceOrdersOnce` | GroupBuy/orders/views.py:180-202 | on an active room, the same user joining twice gets at most one order |
| `RoomRules.JoinNewUser` | GroupBuy/orders/views.py:184-208 | a new user let through on an active room with a non-zero group price is added, takes one unit and gets an order, and the total follows the count; the room stays active iff it is below the maximum and stock remains |
| `RoomRules.ZeroGroupPriceStopsBeforeOrder` | GroupBuy/orders/views.py:189-193 | a 0.00 group price still adds the user and takes a unit, but the join ends before the order and the room stays active |
| `RoomRules.ZeroGroupPriceOverAdmits` | GroupBuy/orders/views.py:189-193 | with a 0.00 group price and a maximum of 1, two joins one second apart leave two participants |
| `RoomRules.Recipients` | GroupBuy/orders/views.py:213 | the recipients are exactly the non-empty emails of the room's participants |
| `RoomRules.StaleCacheChargesClosedRoom` | GroupBuy/orders/views.py:184-202 | the join that closes a room on its last unit of stock leaves a cached "available"; the next join is not admitted, but it gets an order and drives the stock to -1 |
| `RoomRules.ThreeBuyersFillRoom` | GroupBuy/orders/views.py:156-215 | stock 5, maximum 3, group price 9.00: three joins close the room with total 27.00 and stock 2; a fourth buyer within 60 s gets an order without being added, and after 60 s is refused |
| `RoomRules.InsertNewestFirst` | GroupBuy/orders/views.py:239 | inserting a room into a newest-first list keeps it newest first |
| `RoomRules.PublicRoomsNewestFirst` | GroupBuy/orders/views.py:239 | the public room list is ordered by descending id |
| `RoomRules.PublicRoomsStrictlyNewestFirst` | GroupBuy/orders/views.py:239 | when room ids are unique, the public list is strictly decreasing by id, so its order is fully determined |
| `RoomRules.PublicRoomsContents` | GroupBuy/orders/views.py:239 | the public room list holds exactly the non-private rooms, each as often as it is stored |
| `RoomRules.FirstOpenRoom` | GroupBuy/orders/views.py:251 | the room offered for a product is an active room for it with no smaller id among them; none exactly when it has no active room |
| `RoomRules.IndividualPaymentMatchesOrder` | GroupBuy/orders/views.py:301-302 | for an individual order, the payment page shows the total the order was saved with |
| `RoomRules.PaymentTotal` | GroupBuy/orders/views.py:275-277 | a room-linked order shows what a GROUP order of its quantity is saved at, any other order what an INDIVIDUAL order is saved at |
| `RoomRules.JoinOrderPaymentDiffers` | GroupBuy/orders/views.py:275-277 | a join's order is saved at the list price but its payment page shows the group price; the two differ whenever the group price is non-zero and differs from the list price |
| `OrderViews.Shop.constructor` | GroupBuy/orders/models.py:7-46 | a new shop has no rooms and no orders, nothing cached and no mail sent, with the given user emails, and room ids are unique |
| `OrderViews.Shop.CheckGroupPurchaseAvailability` | GroupBuy/orders/views.py:14-27 | the answer and the new room, stock and cache are those of `Availability` |
| `OrderViews.Shop.CreateOrder` | GroupBuy/orders/views.py:31-88 | the outcome is `IndividualOrderDecision`; on success, one INDIVIDUAL order for one participant is appended at quantity times list price, and the stock is unchanged |
| `OrderViews.Shop.CreateGroupPurchase` | GroupBuy/orders/views.py:92-153 | the outcome is `RoomCreationDecision`; on success, one new room with a fresh id is appended, with no participants, active, total 0.00 |
| `OrderViews.Shop.JoinGroupPurchase` | GroupBuy/orders/views.py:156-223 | outcome, room, stock and cache are those of `Join`; a successful join appends one untyped order of one unit linked to the room at the list price; a closing join sends one mail to the participants with a non-empty email |
| `OrderViews.Shop.GroupPurchaseAll` | GroupBuy/orders/views.py:236-240 | lists exactly the non-private rooms, each once, in strictly decreasing id order |
| `OrderViews.Shop.ExistingGroupChoices` | GroupBuy/orders/views.py:244-256 | offers the product's active room with the smallest id, or none when it has none |
| `OrderViews.Shop.TestPaymentTotal` | GroupBuy/orders/views.py:264-302 | a room-linked order shows quantity times the room's per-unit price, any other order quantity times the list price |

## Left out

- `RoomRules.CapacityNeverExceeded`: it is proved only for a group price other than 0.00. With 0.00, a join returns before the closing check, and `ZeroGroupPriceOverAdmits` shows the maximum being exceeded.
- `RoomRules.JoinTwiceOrdersOnce`: it is proved only for a room that is active at the first join. On an inactive room with a cached "available", the same user is never added, so each join gets another order.
- HTTP handling, flash messages, redirects, rendering and URL building. Each view is reduced to its outcome and its state change.
- Mail delivery. A completion mail is an outbox entry with the product name and the recipients. The recipients are a set, so the list's order and any repeated addresses are not kept.
- Transactions and concurrency. The handlers run one after the other, and the exception handlers that roll back on an unexpected error are not modelled.
- The cache backend's eviction and its clock resolution. Time is whole seconds.
- The import-time default of the expiration field. It is an input.
- Room lookup by id, and its "does not exist" path. The handlers take the room object.
- Product lookup in `existing_group_choices` and in `create_order_view`. The latter's not-found path falls through with no product and fails. `create_group_purchase`'s lookup is modelled, as a missing product.
- Invalid order forms and the unsubmitted form page. A form that is not submitted yields `ShowForm`.
- Saving the payment form on the payment page. Only the total shown is modelled.
- `group_purchase_detail` and `order_detail`. They only read and re-save.
- The ten-digit limit of the Decimal fields. Amounts are unbounded integers.
- Edits to a product's prices. Prices are constants here; after a price edit in the source, a room's stored total no longer matches its count.
- A cart's owner and its other fields. A cart is the sequence of its lines.
- Accounts, the catalog views, reviews, brands, favourites, images, forms, URL tables, migrations, the main app, and the commented-out code after line 325 of GroupBuy/orders/views.py.

=== FILE: order_views.dfy ===
/**
 * The order views as operations on the shop's stored state: the rooms table,
 * the orders table, the availability cache and the outgoing completion mails.
 * Each handler performs its steps on the live objects, one after the other,
 * and its postcondition ties the result to the decision in `RoomRules`.
 *
 * A signed-in user is `Some(id)`, an anonymous visitor `None`; whether the user
 * has a buyer profile is a boolean input; `now` is the current time in seconds.
 */
module OrderViews {
  import opened Wrappers
  import opened Products
  import opened Orders
  import opened RoomRules

  class Shop {
    /** Every user's email address (the empty string when a user has none). */
    const emails: map<UserId, string>
    /** The rooms table, in creation order. */
    var rooms: seq<GroupPurchase>
    /** The id the next room receives. */
    var nextRoomId: nat
    /** The orders table, in creation order. */
    var orders: seq<Order>
    /** The availability cache, keyed by room id. */
    var cache: Cache
    /** Completion mails handed to the mail service, in the order they were sent. */
    var outbox: seq<Mail>

    /**
     * Room ids are handed out in increasing order, as an auto-incremented
     * primary key is, so no two rooms share an id.
     */
    ghost predicate Valid()
      reads this
    {
      && (forall i, j :: 0 <= i < j < |rooms| ==> rooms[i].id < rooms[j].id)
      && (forall i :: 0 <= i < |rooms| ==> rooms[i].id < nextRoomId)
    }

    constructor (emails: map<UserId, string>)
      ensures Valid()
      ensures this.emails == emails && rooms == [] && orders == [] && cache == map[] && outbox == []
    {
      this.emails := emails;
      rooms := [];
      nextRoomId := 1;
      orders := [];
      cache := map[];
      outbox := [];
    }

    /** What a join on `room` reads and writes: the room's fields, its product's stock and the cache. */
    function WorldOf(room: GroupPurchase): (w: RoomWorld)
      reads this, room, room.product
    {
      RoomWorld(room.State(), room.product.quantity, cache)
    }

    /** The availability gate on the live room; a negative answer deactivates it. */
    method CheckGroupPurchaseAvailability(room: GroupPurchase, now: int) returns (available: bool)
      requires Valid()
      modifies this`cache, room`isActive
      ensures Valid()
      ensures var g := Availability(room.id, room.product, old(WorldOf(room)), now);
        available == g.available && WorldOf(room) == g.world
    {
      var cached := CachedAvailability(cache, room.id, now);
      if cached.Some? {
        available := cached.value;
      } else {
        available := room.product.quantity > 0 && |room.participants| < room.product.maxParticipants;
        cache := cache[room.id := CacheEntry(available, now + AvailabilityTimeout)];
      }
      if !available {
        room.isActive := false;
      }
    }

    /**
     * An individual order for `quantity` units of `product`. The order is
     * INDIVIDUAL, for one participant, priced at the list price, and the stock
     * is left as it is.
     */
    method CreateOrder(user: Option<UserId>, hasProfile: bool, product: Product, submitted: bool, quantity: nat)
      returns (d: Decision, order: Option<Order>)
      requires Valid()
      modifies this`orders
      ensures Valid()
      ensures d == IndividualOrderDecision(user.Some?, hasProfile, product.quantity, submitted)
      ensures d != Proceed ==> order.None? && orders == old(orders)
      ensures d == Proceed ==>
        && order.Some? && fresh(order.value) && orders == old(orders) + [order.value]
        && order.value.user == user.value && order.value.product == product
        && order.value.quantity == quantity && order.value.orderType == Individual
        && order.value.groupPurchase.None? && order.value.participants == 1
        && order.value.totalPrice == quantity * product.price
      ensures product.quantity == old(product.quantity)
    {
      d := IndividualOrderDecision(user.Some?, hasProfile, product.quantity, submitted);
      if d != Proceed {
        return d, None;
      }
      var o := new Order(user.value, product, quantity, Individual, None, 1, 0);
      o.Save();
      orders := orders + [o];
      order := Some(o);
    }

    /**
     * A new room for `product` (None when it does not exist). It is created
     * empty, active, with a total of 0.00; its creator is not made a participant.
     */
    method CreateGroupPurchase(user: Option<UserId>, hasProfile: bool, product: Option<Product>, submitted: bool,
                               isPrivate: bool, expirationTime: Option<int>)
      returns (d: Decision, room: Option<GroupPurchase>)
      requires Valid()
      modifies this`rooms, this`nextRoomId
      ensures Valid()
      ensures d == RoomCreationDecision(user.Some?, hasProfile,
                                        if product.Some? then Some(product.value.quantity) else None, submitted)
      ensures d != Proceed ==> room.None? && rooms == old(rooms)
      ensures d == Proceed ==>
        && room.Some? && fresh(room.value) && rooms == old(rooms) + [room.value]
        && room.value.id == old(nextRoomId) && room.value.product == product.value
        && room.value.isPrivate == isPrivate && room.value.expirationTime == expirationTime
        && room.value.State() == FreshRoom
    {
      var stock := if product.Some? then Some(product.value.quantity) else None;
      d := RoomCreationDecision(user.Some?, hasProfile, stock, submitted);
      if d != Proceed {
        return d, None;
      }
      var g := new GroupPurchase(nextRoomId, product.value, isPrivate, expirationTime);
      rooms := rooms + [g];
      nextRoomId := nextRoomId + 1;
      room := Some(g);
    }

    /**
     * A join attempt on `room`. Its outcome and the new room, stock and cache
     * are those of `RoomRules.Join`; a successful join also records one order of
     * one unit, without a type and so saved at the list price, and a join that
     * closes the room sends one completion mail to the participants with an email.
     */
    method JoinGroupPurchase(room: GroupPurchase, user: Option<UserId>, now: int) returns (outcome: JoinOutcome)
      requires Valid()
      modifies this`cache, this`orders, this`outbox, room, room.product
      ensures Valid()
      ensures var r := Join(room.id, room.product, old(WorldOf(room)), user, now);
        outcome == r.outcome && WorldOf(room) == r.world
      ensures !outcome.Joined? ==> orders == old(orders)
      ensures outcome.Joined? ==>
        && |orders| == |old(orders)| + 1 && orders[..|old(orders)|] == old(orders)
        && fresh(orders[|old(orders)|])
        && orders[|old(orders)|].user == user.value && orders[|old(orders)|].product == room.product
        && orders[|old(orders)|].quantity == 1 && orders[|old(orders)|].orderType == Blank
        && orders[|old(orders)|].groupPurchase == Some(room) && orders[|old(orders)|].participants == 1
        && orders[|old(orders)|].totalPrice == room.product.price
      ensures outbox ==
        if outcome == Joined(true) then old(outbox) + [Mail(room.product.name, Recipients(room.participants, emails))]
        else old(outbox)
    {
      var product := room.product;
      if product.groupPrice.None? {
        return JoinRefused(NoGroupPrice);
      }
      var available := CheckGroupPurchaseAvailability(room, now);
      if !available {
        return JoinRefused(Unavailable);
      }
      if user.None? {
        return JoinRefused(NotLoggedIn);
      }
      if user.value in room.participants {
        return JoinRefused(AlreadyJoined);
      }
      room.AddParticipant(user.value);
      product.quantity := product.quantity - 1;
      if product.groupPrice.value == 0 {
        return JoinRefused(NoValidPrice);
      }
      var order := new Order(user.value, product, 1, Blank, Some(room), 1, GroupUnitPrice(product));
      order.Save();
      orders := orders + [order];
      var completed := |room.participants| >= product.maxParticipants || product.quantity <= 0;
      if completed {
        room.isActive := false;
        outbox := outbox + [Mail(product.name, Recipients(room.participants, emails))];
      }
      outcome := Joined(completed);
    }

    /** The room directory's public list; ids are unique, so its order is fully determined. */
    method GroupPurchaseAll() returns (listed: seq<GroupPurchase>)
      requires Valid()
      ensures forall i, j :: 0 <= i < j < |listed| ==> listed[i].id > listed[j].id
      ensures forall g :: g in listed ==> g in rooms && !g.isPrivate
      ensures forall g :: g in rooms && !g.isPrivate ==> multiset(listed)[g] == multiset(rooms)[g]
    {
      listed := PublicRoomsNewestFirst(rooms);
      PublicRoomsContents(rooms);
      assert DistinctIds(rooms);
      PublicRoomsStrictlyNewestFirst(rooms);
    }

    /** The room offered on a product's page: its active room with the smallest id, if any. */
    method ExistingGroupChoices(product: Product) returns (open: Option<GroupPurchase>)
      ensures open.None? <==> forall g :: g in rooms ==> !IsOpenFor(g, product)
      ensures open.Some? ==> open.value in rooms && IsOpenFor(open.value, product)
      ensures open.Some? ==> forall g :: g in rooms && IsOpenFor(g, product) ==> open.value.id <= g.id
    {
      open := FirstOpenRoom(rooms, product);
    }

    /** The total shown on an order's payment page. */
    method TestPaymentTotal(order: Order) returns (total: Cents)
      ensures order.groupPurchase.Some? ==> total == order.quantity * GroupUnitPrice(order.product)
      ensures order.groupPurchase.None? ==> total == order.quantity * order.product.price
    {
      total := PaymentTotal(order);
    }
  }
}

=== FILE: orders.dfy ===
/**
 * The two records of the orders application: a group-purchase room and an order.
 *
 * A room's mutable part (its participants, whether it is active and its stored
 * total) is also given as a value, `RoomState`, so that the effect of each
 * in-place update can be stated as a function of the state before it and
 * reasoned about across several calls.
 */
module Orders {
  import opened Wrappers
  import opened Products

  /**
   * The per-unit price a room charges: the group price when it is set and
   * non-zero, otherwise the list price (a Decimal of 0.00 is false in a test).
   */
  function GroupUnitPrice(p: Product): (unit: Cents)
    ensures unit == p.price || Some(unit) == p.groupPrice
  {
    if p.groupPrice.Some? && p.groupPrice.value != 0 then p.groupPrice.value else p.price
  }

  /** The total a room holds for `count` participants. */
  function RoomTotal(count: nat, p: Product): (total: Cents)
    ensures count == 0 ==> total == 0
  {
    count * GroupUnitPrice(p)
  }

  /** The mutable fields of a room. */
  datatype RoomState = RoomState(participants: set<UserId>, isActive: bool, totalPrice: Cents)

  /** The state of a room right after it is created: nobody in it, active, total 0.00. */
  const FreshRoom := RoomState({}, true, 0)

  /** The stored total agrees with the participant count. */
  predicate PriceConsistent(s: RoomState, p: Product)
  {
    s.totalPrice == RoomTotal(|s.participants|, p)
  }

  /** The effect of adding `user` to a room: only an active room takes a user it does not hold yet. */
  function Admitted(s: RoomState, p: Product, user: UserId): (t: RoomState)
  {
    if s.isActive && user !in s.participants then
      var joined := s.participants + {user};
      RoomState(joined, s.isActive, RoomTotal(|joined|, p))
    else
      s
  }

  /** The effect of closing a room: it deactivates once it holds at least `minParticipants`. */
  function Closed(s: RoomState, minParticipants: nat): (t: RoomState)
  {
    if |s.participants| >= minParticipants then s.(isActive := false) else s
  }

  /** A group purchase ("room") for one product. */
  class GroupPurchase {
    const id: nat
    const product: Product
    const isPrivate: bool
    const expirationTime: Option<int>
    var participants: set<UserId>
    var isActive: bool
    var totalPrice: Cents

    /** A new room: no participants, active, total 0.00. */
    constructor (id: nat, product: Product, isPrivate: bool, expirationTime: Option<int>)
      ensures this.id == id && this.product == product
      ensures this.isPrivate == isPrivate && this.expirationTime == expirationTime
      ensures State() == FreshRoom
    {
      this.id := id;
      this.product := product;
      this.isPrivate := isPrivate;
      this.expirationTime := expirationTime;
      participants := {};
      isActive := true;
      totalPrice := 0;
    }

    /** The room's mutable fields as a value. */
    function State(): (s: RoomState)
      reads this
    {
      RoomState(participants, isActive, totalPrice)
    }

    /** The total for the current participants at the current per-unit price. */
    function CalculateTotalPrice(): (total: Cents)
      reads this
      ensures total == RoomTotal(|participants|, product)
    {
      |participants| * GroupUnitPrice(product)
    }

    method AddParticipant(user: UserId)
      modifies this
      ensures State() == Admitted(old(State()), product, user)
    {
      if isActive && user !in participants {
        participants := participants + {user};
        totalPrice := CalculateTotalPrice();
      }
    }

    method ClosePurchase()
      modifies this
      ensures State() == Closed(old(State()), product.minParticipants)
    {
      if |participants| >= product.minParticipants {
        isActive := false;
      }
    }

    /** Whether the room has expired at time `now`: only a set expiration can pass, and only strictly. */
    predicate IsExpired(now: int)
      ensures IsExpired(now) ==> expirationTime.Some?
    {
      if expirationTime.Some? then now > expirationTime.value else false
    }
  }

  /** The order type; `Blank` is the empty value an order gets when no type is set. */
  datatype OrderType = Individual | Group | Blank

  /**
   * The total an order is saved with: a GROUP order is charged at the room's
   * per-unit price, every other type (including `Blank`) at the list price.
   */
  function OrderPrice(orderType: OrderType, quantity: nat, p: Product): (total: Cents)
    ensures quantity == 0 ==> total == 0
  {
    if orderType == Group then quantity * GroupUnitPrice(p) else quantity * p.price
  }

  /** An order; its total is recomputed whenever it is saved. */
  class Order {
    const user: UserId
    const product: Product
    const quantity: nat
    const orderType: OrderType
    const groupPurchase: Option<GroupPurchase>
    const participants: nat
    var totalPrice: Cents

    /** An unsaved order carrying whatever total the caller gave it. */
    constructor (user: UserId, product: Product, quantity: nat, orderType: OrderType,
                 groupPurchase: Option<GroupPurchase>, participants: nat, totalPrice: Cents)
      ensures this.user == user && this.product == product && this.quantity == quantity
      ensures this.orderType == orderType && this.groupPurchase == groupPurchase
      ensures this.participants == participants && this.totalPrice == totalPrice
    {
      this.user := user;
      this.product := product;
      this.quantity := quantity;
      this.orderType := orderType;
      this.groupPurchase := groupPurchase;
      this.participants := participants;
      this.totalPrice := totalPrice;
    }

    /** Saving discards the given total and stores the one the order's type calls for. */
    method Save()
      modifies this`totalPrice
      ensures totalPrice == OrderPrice(orderType, quantity, product)
    {
      if orderType == Group {
        totalPrice := quantity * GroupUnitPrice(product);
      } else {
        totalPrice := quantity * product.price;
      }
    }
  }

  // Properties of the room's updates.

  /** A room's per-unit price is its group price when that is non-zero, and falls back to the list price otherwise. */
  lemma RoomTotalFallsBackToPrice(count: nat, p: Product)
    ensures p.groupPrice.Some? && p.groupPrice.value != 0 ==> RoomTotal(count, p) == count * p.groupPrice.value
    ensures p.groupPrice.None? || p.groupPrice == Some(0) ==> RoomTotal(count, p) == count * p.price
  {
  }

  /** An active room takes a new user: exactly that user is added and the total follows the new count. */
  lemma AdmitNewUser(s: RoomState, p: Product, user: UserId)
    requires s.isActive && user !in s.participants
    ensures Admitted(s, p, user).participants == s.participants + {user}
    ensures |Admitted(s, p, user).participants| == |s.participants| + 1
    ensures Admitted(s, p, user).isActive
    ensures PriceConsistent(Admitted(s, p, user), p)
  {
  }

  /** An inactive room, or a user already in it, leaves every field as it was. */
  lemma AdmitIsNoOp(s: RoomState, p: Product, user: UserId)
    requires !s.isActive || user in s.participants
    ensures Admitted(s, p, user) == s
  {
  }

  /** Adding the same user twice has the effect of adding them once. */
  lemma AdmitIdempotent(s: RoomState, p: Product, user: UserId)
    ensures Admitted(Admitted(s, p, user), p, user) == Admitted(s, p, user)
  {
    if s.isActive && user !in s.participants {
      AdmitNewUser(s, p, user);
    }
  }

  /** Adding a user keeps the stored total in step with the count. */
  lemma AdmitKeepsPriceConsistent(s: RoomState, p: Product, user: UserId)
    requires PriceConsistent(s, p)
    ensures PriceConsistent(Admitted(s, p, user), p)
  {
  }

  /** Closing deactivates the room exactly when it holds at least the minimum, and touches nothing else. */
  lemma CloseIff(s: RoomState, minParticipants: nat)
    ensures Closed(s, minParticipants).isActive <==> s.isActive && |s.participants| < minParticipants
    ensures Closed(s, minParticipants).participants == s.participants
    ensures Closed(s, minParticipants).totalPrice == s.totalPrice
  {
  }

  /** Neither update of the room model can make an inactive room active again. */
  lemma NeverReactivates(s: RoomState, p: Product, user: UserId)
    requires !s.isActive
    ensures !Admitted(s, p, user).isActive && !Closed(s, p.minParticipants).isActive
  {
  }

  /** Without an expiration time a room never expires; with one, it is expired exactly after it. */
  lemma ExpiryIsStrict(g: GroupPurchase, now: int)
    ensures g.expirationTime.None? ==> !g.IsExpired(now)
    ensures g.expirationTime.Some? ==> (g.IsExpired(now) <==> now > g.expirationTime.value)
  {
  }

  /** Once expired, a room stays expired at every later time. */
  lemma ExpiryIsPermanent(g: GroupPurchase, now: int, later: int)
    requires g.IsExpired(now) && now <= later
    ensures g.IsExpired(later)
  {
  }

  // Properties of order pricing.

  /**
   * Saved order totals: a GROUP order for as many units as a room has
   * participants costs what the room's total says; any other type pays the
   * list price per unit whatever group price is set.
   */
  lemma OrderPriceByType(orderType: OrderType, quantity: nat, p: Product)
    ensures orderType == Group ==> OrderPrice(orderType, quantity, p) == RoomTotal(quantity, p)
    ensures orderType != Group ==> OrderPrice(orderType, quantity, p) == quantity * p.price
  {
  }
}

=== FILE: products.dfy ===
/**
 * The catalog records the group-purchase engine reads: a product's prices,
 * participation thresholds and stock, and the cart totals built on the list price.
 *
 * Every price is a Decimal with two decimal places, so it is held exactly as an
 * integer number of hundredths (cents).
 */
module Products {
  import opened Wrappers

  /** A user's primary key. */
  type UserId = nat

  /** An amount of money in hundredths of the currency unit. */
  type Cents = int

  /** Field defaults of a product's participation thresholds. */
  const DefaultMinParticipants: nat := 2
  const DefaultMaxParticipants: nat := 5

  /** Field default of a cart line's quantity. */
  const DefaultCartItemQuantity: nat := 1

  /**
   * A catalog product. Only the stock (`quantity`) is ever written by the
   * group-purchase engine; the prices and thresholds are read-only there.
   * The stock is a signed integer with no lower bound, while both thresholds
   * are non-negative.
   */
  class Product {
    const id: nat
    const name: string
    const price: Cents
    const groupPrice: Option<Cents>
    const minParticipants: nat
    const maxParticipants: nat
    var quantity: int

    constructor (id: nat, name: string, price: Cents, groupPrice: Option<Cents>,
                 minParticipants: nat, maxParticipants: nat, quantity: int)
      ensures this.id == id && this.name == name && this.price == price
      ensures this.groupPrice == groupPrice && this.quantity == quantity
      ensures this.minParticipants == minParticipants && this.maxParticipants == maxParticipants
    {
      this.id := id;
      this.name := name;
      this.price := price;
      this.groupPrice := groupPrice;
      this.minParticipants := minParticipants;
      this.maxParticipants := maxParticipants;
      this.quantity := quantity;
    }

    /** A product saved without thresholds takes the field defaults. */
    constructor WithDefaults(id: nat, name: string, price: Cents, groupPrice: Option<Cents>, quantity: int)
      ensures this.id == id && this.name == name && this.price == price
      ensures this.groupPrice == groupPrice && this.quantity == quantity
      ensures minParticipants == DefaultMinParticipants && maxParticipants == DefaultMaxParticipants
      ensures minParticipants <= maxParticipants
    {
      this.id := id;
      this.name := name;
      this.price := price;
      this.groupPrice := groupPrice;
      this.minParticipants := DefaultMinParticipants;
      this.maxParticipants := DefaultMaxParticipants;
      this.quantity := quantity;
    }
  }

  /** One cart line: a product and a non-negative quantity. */
  datatype CartItem = CartItem(product: Product, quantity: nat)

  /** A cart line as it is created when no quantity is given. */
  function NewCartItem(product: Product): (item: CartItem)
    ensures item.product == product && item.quantity == DefaultCartItemQuantity
  {
    CartItem(product, DefaultCartItemQuantity)
  }

  /** The total of one cart line: the list price times the quantity. */
  function ItemTotal(item: CartItem): (total: Cents)
    ensures item.quantity == 0 ==> total == 0
    ensures item.product.price >= 0 ==> total >= 0
  {
    item.product.price * item.quantity
  }

  /** The total of a cart: the sum of its lines' totals, 0 for an empty cart. */
  function CartTotal(items: seq<CartItem>): (total: Cents)
    ensures items == [] ==> total == 0
  {
    if items == [] then 0 else ItemTotal(items[0]) + CartTotal(items[1..])
  }

  /** `n` cart lines of one unit each of `p`: the reference against which a line of `n` units is checked. */
  function Units(p: Product, n: nat): (items: seq<CartItem>)
    ensures |items| == n
  {
    if n == 0 then [] else [CartItem(p, 1)] + Units(p, n - 1)
  }

  /** A line of `n` units costs exactly as much as `n` lines of one unit. */
  lemma {:induction false} ItemTotalIsUnitSum(p: Product, n: nat)
    ensures ItemTotal(CartItem(p, n)) == CartTotal(Units(p, n))
  {
    if n > 0 {
      var units := Units(p, n);
      assert units[0] == CartItem(p, 1) && units[1..] == Units(p, n - 1);
      ItemTotalIsUnitSum(p, n - 1);
      assert p.price * n == p.price + p.price * (n - 1);
    }
  }

  /** Adding a line to a cart raises its total by exactly that line's total. */
  lemma {:induction false} CartTotalAppend(items: seq<CartItem>, item: CartItem)
    ensures CartTotal(items + [item]) == CartTotal(items) + ItemTotal(item)
  {
    if items == [] {
      assert items + [item] == [item];
    } else {
      assert (items + [item])[1..] == items[1..] + [item];
      CartTotalAppend(items[1..], item);
    }
  }

  /** The total of two carts put together is the sum of their totals. */
  lemma {:induction false} CartTotalConcat(a: seq<CartItem>, b: seq<CartItem>)
    ensures CartTotal(a + b) == CartTotal(a) + CartTotal(b)
  {
    if a == [] {
      assert a + b == b;
    } else {
      assert (a + b)[0] == a[0] && (a + b)[1..] == a[1..] + b;
      CartTotalConcat(a[1..], b);
    }
  }

  /**
   * The cart's lines are an unordered many-to-many relation, so its total must
   * not depend on the order they come back in: any two arrangements of the same
   * lines have the same total.
   */
  lemma {:induction false} CartTotalOrderIndependent(a: seq<CartItem>, b: seq<CartItem>)
    requires multiset(a) == multiset(b)
    ensures CartTotal(a) == CartTotal(b)
  {
    if a == [] {
      assert |b| == |multiset(b)| == 0;
    } else {
      var x := a[0];
      assert x in multiset(b);
      var i :| 0 <= i < |b| && b[i] == x;
      var rest := b[..i] + b[i + 1..];
      assert b == b[..i] + [x] + b[i + 1..];
      CartTotalConcat(b[..i] + [x], b[i + 1..]);
      CartTotalConcat(b[..i], [x]);
      CartTotalConcat(b[..i], b[i + 1..]);
      assert a == [x] + a[1..];
      assert multiset(a) == multiset{x} + multiset(a[1..]);
      assert multiset(b) == multiset(b[..i]) + multiset{x} + multiset(b[i + 1..]);
      assert multiset(rest) == multiset(b[..i]) + multiset(b[i + 1..]);
      forall y ensures multiset(a[1..])[y] == multiset(rest)[y] {
        assert multiset(a)[y] == multiset{x}[y] + multiset(a[1..])[y];
        assert multiset(b)[y] == multiset(b[..i])[y] + multiset{x}[y] + multiset(b[i + 1..])[y];
      }
      assert multiset(a[1..]) == multiset(rest);
      CartTotalOrderIndependent(a[1..], rest);
    }
  }
}

=== FILE: room_rules.dfy ===
/**
 * The decisions the order views take, as functions of the state they read:
 * the cached availability gate, the join sequence, the guards in front of an
 * individual order and of room creation, the room directory and the total shown
 * on the payment page. `OrderViews.Shop` performs them on the live objects.
 */
module RoomRules {
  import opened Wrappers
  import opened Products
  import opened Orders

  // The availability gate and its cache.

  /** How long, in seconds, a cached availability answer is used. */
  const AvailabilityTimeout: int := 60

  /** A cached availability answer and the time from which it is no longer used. */
  datatype CacheEntry = CacheEntry(available: bool, expiresAt: int)

  /** The cache, keyed by room id. */
  type Cache = map<nat, CacheEntry>

  /** A cache read: an entry is returned until the time it expires, and is absent from then on. */
  function CachedAvailability(cache: Cache, roomId: nat, now: int): (answer: Option<bool>)
  {
    if roomId in cache && now < cache[roomId].expiresAt then Some(cache[roomId].available) else None
  }

  /** What the join sequence reads and writes for one room: its fields, its product's stock and the cache. */
  datatype RoomWorld = RoomWorld(room: RoomState, stock: int, cache: Cache)

  datatype GateResult = GateResult(available: bool, world: RoomWorld)

  /**
   * The availability gate. On a cache miss the answer is "stock left and room
   * below its maximum", and it is cached for 60 seconds; on a hit the cached
   * answer is returned whatever the live state. A negative answer deactivates
   * the room. Nothing else changes.
   */
  function Availability(roomId: nat, p: Product, w: RoomWorld, now: int): (g: GateResult)
    ensures CachedAvailability(w.cache, roomId, now).Some? ==>
              g.available == CachedAvailability(w.cache, roomId, now).value && g.world.cache == w.cache
    ensures CachedAvailability(w.cache, roomId, now).None? ==>
              && g.available == (w.stock > 0 && |w.room.participants| < p.maxParticipants)
              && g.world.cache == w.cache[roomId := CacheEntry(g.available, now + AvailabilityTimeout)]
    ensures g.available ==> g.world.room == w.room
    ensures !g.available ==> g.world.room == w.room.(isActive := false)
    ensures g.world.stock == w.stock
  {
    var cached := CachedAvailability(w.cache, roomId, now);
    if cached.Some? then
      var room := if cached.value then w.room else w.room.(isActive := false);
      GateResult(cached.value, RoomWorld(room, w.stock, w.cache))
    else
      var available := w.stock > 0 && |w.room.participants| < p.maxParticipants;
      var room := if available then w.room else w.room.(isActive := false);
      GateResult(available, RoomWorld(room, w.stock, w.cache[roomId := CacheEntry(available, now + AvailabilityTimeout)]))
  }

  // Outcomes of the views.

  /** Why a view stopped. `AlreadyJoined` is shown as a warning rather than an error. */
  datatype Refusal =
    | NotLoggedIn | NotAuthorized | ProductNotFound | OutOfStock | InsufficientReserve
    | NoGroupPrice | Unavailable | AlreadyJoined | NoValidPrice

  /** The outcome of a guarded view: refused, the form is shown, or the record is created. */
  datatype Decision = Refused(reason: Refusal) | ShowForm | Proceed

  /**
   * The guards in front of an individual order: a logged-in user with a buyer
   * profile, a product in stock, and a submitted form.
   */
  function IndividualOrderDecision(authenticated: bool, hasProfile: bool, stock: int, submitted: bool): (d: Decision)
    ensures d == Proceed <==> authenticated && hasProfile && stock > 0 && submitted
    ensures d == Refused(OutOfStock) <==> authenticated && hasProfile && stock <= 0
  {
    if !authenticated then Refused(NotLoggedIn)
    else if !hasProfile then Refused(NotAuthorized)
    else if stock <= 0 then Refused(OutOfStock)
    else if !submitted then ShowForm
    else Proceed
  }

  /**
   * The guards in front of room creation; `stock` is None when the product does
   * not exist. A room is only created for a product with at least two units.
   */
  function RoomCreationDecision(authenticated: bool, hasProfile: bool, stock: Option<int>, submitted: bool): (d: Decision)
    ensures d == Proceed <==> authenticated && hasProfile && stock.Some? && stock.value >= 2 && submitted
    ensures d == Refused(OutOfStock) <==> authenticated && hasProfile && stock.Some? && stock.value <= 0
    ensures d == Refused(InsufficientReserve) <==> authenticated && hasProfile && stock == Some(1)
  {
    if !authenticated then Refused(NotLoggedIn)
    else if !hasProfile then Refused(NotAuthorized)
    else if stock.None? then Refused(ProductNotFound)
    else if stock.value <= 0 then Refused(OutOfStock)
    else if stock.value <= 1 then Refused(InsufficientReserve)
    else if !submitted then ShowForm
    else Proceed
  }

  // The join sequence.

  /** A join ends refused, or with an order created; `completed` says whether it closed the room. */
  datatype JoinOutcome = JoinRefused(reason: Refusal) | Joined(completed: bool)

  datatype JoinResult = JoinResult(outcome: JoinOutcome, world: RoomWorld)

  /** The outcomes that took a unit of stock. */
  predicate Charged(o: JoinOutcome)
  {
    o.Joined? || o == JoinRefused(NoValidPrice)
  }

  /**
   * A join attempt by `user` (None for an anonymous visitor) at time `now`:
   * group-price check, availability gate, login check, already-joined check;
   * then the user is added (a no-op on an inactive room), one unit of stock is
   * taken, a zero group price stops here, an order is created, and the room is
   * closed when it is full or the stock is used up.
   */
  function Join(roomId: nat, p: Product, w: RoomWorld, user: Option<UserId>, now: int): (r: JoinResult)
    ensures r.outcome == JoinRefused(NoGroupPrice) <==> p.groupPrice.None?
    ensures p.groupPrice.None? ==> r.world == w
    ensures Charged(r.outcome) ==> user.Some? && user.value !in w.room.participants
    ensures r.world.stock == if Charged(r.outcome) then w.stock - 1 else w.stock
    ensures r.world.room.participants ==
              if Charged(r.outcome) && w.room.isActive then w.room.participants + {user.value} else w.room.participants
    ensures !w.room.isActive ==> !r.world.room.isActive
    ensures r.outcome == JoinRefused(Unavailable) ==> !r.world.room.isActive
    ensures r.outcome.Joined? ==>
              (r.outcome.completed <==> |r.world.room.participants| >= p.maxParticipants || r.world.stock <= 0)
    ensures r.outcome.Joined? && r.outcome.completed ==> !r.world.room.isActive
    ensures PriceConsistent(w.room, p) ==> PriceConsistent(r.world.room, p)
  {
    if p.groupPrice.None? then JoinResult(JoinRefused(NoGroupPrice), w)
    else
      var gate := Availability(roomId, p, w, now);
      var w1 := gate.world;
      if !gate.available then JoinResult(JoinRefused(Unavailable), w1)
      else if user.None? then JoinResult(JoinRefused(NotLoggedIn), w1)
      else if user.value in w1.room.participants then JoinResult(JoinRefused(AlreadyJoined), w1)
      else
        var room := Admitted(w1.room, p, user.value);
        var stock := w1.stock - 1;
        if p.groupPrice.value == 0 then
          JoinResult(JoinRefused(NoValidPrice), RoomWorld(room, stock, w1.cache))
        else
          var completed := |room.participants| >= p.maxParticipants || stock <= 0;
          var closed := if completed then room.(isActive := false) else room;
          JoinResult(Joined(completed), RoomWorld(closed, stock, w1.cache))
  }

  /** The addresses a completion mail goes to: every participant whose email is not empty. */
  function Recipients(participants: set<UserId>, emails: map<UserId, string>): (to: set<string>)
    ensures forall a :: a in to ==> a != ""
    ensures forall u :: u in participants && u in emails && emails[u] != "" ==> emails[u] in to
    ensures forall a :: a in to ==> exists u :: u in participants && u in emails && emails[u] == a
  {
    set u | u in participants && u in emails && emails[u] != "" :: emails[u]
  }

  /** The completion mail: the product's name and the recipients. */
  datatype Mail = Mail(productName: string, recipients: set<string>)

  /** One join attempt of a sequence: who tries, and when. */
  datatype JoinAttempt = JoinAttempt(user: Option<UserId>, now: int)

  /** The world after a sequence of join attempts on one room, one after the other. */
  function RunJoins(roomId: nat, p: Product, w: RoomWorld, attempts: seq<JoinAttempt>): (last: RoomWorld)
    decreases |attempts|
  {
    if attempts == [] then w
    else RunJoins(roomId, p, Join(roomId, p, w, attempts[0].user, attempts[0].now).world, attempts[1..])
  }

  // Properties of the gate and of joining.

  /**
   * How a join follows the availability gate, once a group price is set: a
   * negative answer refuses it with only the gate's changes; after a positive
   * answer an anonymous visitor is refused, an existing participant is refused,
   * and any other user is charged a unit of stock whether or not the room is
   * still active. A charged join stops before its order exactly when the group
   * price is 0.00. Only the gate writes the cache, and a join that is not
   * charged leaves exactly the world the gate left.
   */
  lemma JoinFollowsGate(roomId: nat, p: Product, w: RoomWorld, user: Option<UserId>, now: int)
    requires p.groupPrice.Some?
    ensures var gate := Availability(roomId, p, w, now);
      var r := Join(roomId, p, w, user, now);
      && (r.outcome == JoinRefused(Unavailable) <==> !gate.available)
      && (!gate.available ==> r.world == gate.world)
      && (r.outcome == JoinRefused(NotLoggedIn) <==> gate.available && user.None?)
      && (r.outcome == JoinRefused(AlreadyJoined) <==>
            gate.available && user.Some? && user.value in w.room.participants)
      && (Charged(r.outcome) <==> gate.available && user.Some? && user.value !in w.room.participants)
      && (r.outcome == JoinRefused(NoValidPrice) <==> Charged(r.outcome) && p.groupPrice == Some(0))
      && r.world.cache == gate.world.cache
      && (!Charged(r.outcome) ==> r.world == gate.world)
  {
  }

  /** The gate never activates a room, and a room it answers "unavailable" for is inactive afterwards. */
  lemma GateNeverActivates(roomId: nat, p: Product, w: RoomWorld, now: int)
    ensures !w.room.isActive ==> !Availability(roomId, p, w, now).world.room.isActive
    ensures !Availability(roomId, p, w, now).available ==> !Availability(roomId, p, w, now).world.room.isActive
  {
  }

  /**
   * Room capacity invariant: the room holds at most its maximum, and an active
   * room that has reached it has no cached "available" answer that could let
   * one more user in.
   */
  ghost predicate WithinCapacity(roomId: nat, p: Product, w: RoomWorld)
  {
    && |w.room.participants| <= p.maxParticipants
    && (w.room.isActive && |w.room.participants| >= p.maxParticipants ==>
          !(roomId in w.cache && w.cache[roomId].available))
  }

  /** One join keeps the capacity invariant, provided the group price is not 0.00. */
  lemma JoinKeepsWithinCapacity(roomId: nat, p: Product, w: RoomWorld, user: Option<UserId>, now: int)
    requires p.groupPrice != Some(0)
    requires WithinCapacity(roomId, p, w)
    ensures WithinCapacity(roomId, p, Join(roomId, p, w, user, now).world)
  {
    if p.groupPrice.Some? {
      var gate := Availability(roomId, p, w, now);
      if gate.available && user.Some? && user.value !in gate.world.room.participants {
        assert gate.world.room == w.room;
        if w.room.isActive {
          assert |w.room.participants| < p.maxParticipants;
          AdmitNewUser(w.room, p, user.value);
        }
      }
    }
  }

  lemma {:induction false} RunJoinsKeepsWithinCapacity(roomId: nat, p: Product, w: RoomWorld, attempts: seq<JoinAttempt>)
    requires p.groupPrice != Some(0)
    requires WithinCapacity(roomId, p, w)
    ensures WithinCapacity(roomId, p, RunJoins(roomId, p, w, attempts))
    decreases |attempts|
  {
    if attempts != [] {
      JoinKeepsWithinCapacity(roomId, p, w, attempts[0].user, attempts[0].now);
      RunJoinsKeepsWithinCapacity(roomId, p, Join(roomId, p, w, attempts[0].user, attempts[0].now).world, attempts[1..]);
    }
  }

  /**
   * Capacity: starting from a new room (empty, active, nothing cached for it),
   * no sequence of joins brings the participant count above the product's
   * maximum, as long as the group price is not 0.00.
   */
  lemma CapacityNeverExceeded(roomId: nat, p: Product, stock: int, cache: Cache, attempts: seq<JoinAttempt>)
    requires p.groupPrice != Some(0)
    requires roomId !in cache
    ensures |RunJoins(roomId, p, RoomWorld(FreshRoom, stock, cache), attempts).room.participants| <= p.maxParticipants
  {
    RunJoinsKeepsWithinCapacity(roomId, p, RoomWorld(FreshRoom, stock, cache), attempts);
  }

  /**
   * Terminal state: once a room is inactive, no sequence of joins changes its
   * participants or total, nor makes it active again.
   */
  lemma {:induction false} ClosedRoomStaysClosed(roomId: nat, p: Product, w: RoomWorld, attempts: seq<JoinAttempt>)
    requires !w.room.isActive
    ensures RunJoins(roomId, p, w, attempts).room == w.room
    decreases |attempts|
  {
    if attempts != [] {
      var next := Join(roomId, p, w, attempts[0].user, attempts[0].now).world;
      assert next.room == w.room;
      ClosedRoomStaysClosed(roomId, p, next, attempts[1..]);
    }
  }

  /** Price consistency: the stored total of a new room stays equal to count times unit price through every join. */
  lemma {:induction false} RunJoinsKeepsPriceConsistent(roomId: nat, p: Product, w: RoomWorld, attempts: seq<JoinAttempt>)
    requires PriceConsistent(w.room, p)
    ensures PriceConsistent(RunJoins(roomId, p, w, attempts).room, p)
    decreases |attempts|
  {
    if attempts != [] {
      RunJoinsKeepsPriceConsistent(roomId, p, Join(roomId, p, w, attempts[0].user, attempts[0].now).world, attempts[1..]);
    }
  }

  /**
   * An existing participant's join creates no order and changes nothing but
   * what the availability gate itself does: participants, total and stock stay.
   */
  lemma RejoinChangesNothing(roomId: nat, p: Product, w: RoomWorld, user: UserId, now: int)
    requires user in w.room.participants
    ensures var r := Join(roomId, p, w, Some(user), now);
      && !r.outcome.Joined?
      && r.world == (if p.groupPrice.None? then w else Availability(roomId, p, w, now).world)
      && r.world.stock == w.stock
      && r.world.room.participants == w.room.participants
      && r.world.room.totalPrice == w.room.totalPrice
      && (r.world.room.isActive ==> w.room.isActive)
  {
  }

  /** On an active room, the same user joining twice gets at most one order. */
  lemma JoinTwiceOrdersOnce(roomId: nat, p: Product, w: RoomWorld, user: UserId, t1: int, t2: int)
    requires w.room.isActive
    ensures var r1 := Join(roomId, p, w, Some(user), t1);
      !(r1.outcome.Joined? && Join(roomId, p, r1.world, Some(user), t2).outcome.Joined?)
  {
  }

  /**
   * A new user joining an active room with a non-zero group price and an
   * "available" answer is added, takes one unit of stock and gets an order;
   * the room closes exactly when it is full or out of stock.
   */
  lemma JoinNewUser(roomId: nat, p: Product, w: RoomWorld, user: UserId, now: int)
    requires p.groupPrice.Some? && p.groupPrice.value != 0
    requires w.room.isActive && user !in w.room.participants
    requires Availability(roomId, p, w, now).available
    ensures var r := Join(roomId, p, w, Some(user), now);
      && r.outcome.Joined?
      && r.world.room.participants == w.room.participants + {user}
      && r.world.room.totalPrice == RoomTotal(|w.room.participants| + 1, p)
      && r.world.stock == w.stock - 1
      && (r.world.room.isActive <==> |w.room.participants| + 1 < p.maxParticipants && w.stock - 1 > 0)
  {
    AdmitNewUser(w.room, p, user);
  }

  /**
   * A cached "available" answer on a room that is no longer active lets a new
   * user through: the user is not added, yet a unit of stock is taken and an
   * order is created, with the room left closed. When the room is full or the
   * stock is used up, the join reports completion again, so the completion
   * mail is sent again.
   */
  lemma StaleAnswerChargesInactiveRoom(roomId: nat, p: Product, w: RoomWorld, user: UserId, now: int)
    requires p.groupPrice.Some? && p.groupPrice.value != 0
    requires !w.room.isActive && user !in w.room.participants
    requires CachedAvailability(w.cache, roomId, now) == Some(true)
    ensures var r := Join(roomId, p, w, Some(user), now);
      && r.outcome.Joined?
      && r.world.room == w.room
      && r.world.stock == w.stock - 1
      && (r.outcome.completed <==> |w.room.participants| >= p.maxParticipants || w.stock - 1 <= 0)
  {
  }

  /**
   * With a group price of 0.00 a new user is still added and takes a unit of
   * stock, but the join stops before an order is created and before the room
   * can be closed.
   */
  lemma ZeroGroupPriceStopsBeforeOrder(roomId: nat, p: Product, w: RoomWorld, user: UserId, now: int)
    requires p.groupPrice == Some(0)
    requires w.room.isActive && user !in w.room.participants
    requires Availability(roomId, p, w, now).available
    ensures var r := Join(roomId, p, w, Some(user), now);
      && r.outcome == JoinRefused(NoValidPrice)
      && r.world.room.participants == w.room.participants + {user}
      && r.world.room.isActive
      && r.world.stock == w.stock - 1
  {
  }

  // Consequences of the cache, exhibited on concrete inputs.

  /**
   * With a group price of 0.00 the room is never closed by a join, so a cached
   * "available" answer lets a second user into a room whose maximum is 1.
   */
  lemma ZeroGroupPriceOverAdmits(p: Product, roomId: nat)
    requires p.groupPrice == Some(0) && p.maxParticipants == 1
    ensures var w0 := RoomWorld(FreshRoom, 5, map[]);
      var r1 := Join(roomId, p, w0, Some(1), 0);
      var r2 := Join(roomId, p, r1.world, Some(2), 1);
      r2.world.room.participants == {1, 2} && |r2.world.room.participants| > p.maxParticipants
  {
    var w0 := RoomWorld(FreshRoom, 5, map[]);
    var r1 := Join(roomId, p, w0, Some(1), 0);
    assert r1.world.room.participants == {1} && r1.world.room.isActive;
    assert CachedAvailability(r1.world.cache, roomId, 1) == Some(true);
    var r2 := Join(roomId, p, r1.world, Some(2), 1);
    assert r2.world.room.participants == {1} + {2};
    assert |{1, 2}| == 2;
  }

  /**
   * Within the cache's lifetime a join on a room that the previous join closed
   * still succeeds: the user is not added, yet a unit of stock is taken (here
   * driving it to -1) and an order is created.
   */
  lemma StaleCacheChargesClosedRoom(p: Product, roomId: nat)
    requires p.groupPrice == Some(900) && p.maxParticipants == 5
    ensures var w0 := RoomWorld(FreshRoom, 1, map[]);
      var r1 := Join(roomId, p, w0, Some(1), 0);
      var r2 := Join(roomId, p, r1.world, Some(2), 1);
      && r1.outcome == Joined(true) && !r1.world.room.isActive
      && r2.outcome == Joined(true)
      && r2.world.room.participants == {1}
      && r2.world.stock == -1
  {
    var w0 := RoomWorld(FreshRoom, 1, map[]);
    var r1 := Join(roomId, p, w0, Some(1), 0);
    assert r1.world.room.participants == {1} && r1.world.stock == 0;
    assert CachedAvailability(r1.world.cache, roomId, 1) == Some(true);
  }

  /**
   * Three buyers fill a room of three (stock 5, group price 9.00): the room is
   * closed with a total of 27.00 and 2 units left. A fourth buyer inside the
   * cache's 60 seconds is not added but still gets an order and takes a unit;
   * after the cached answer has expired the fourth buyer is refused.
   */
  lemma ThreeBuyersFillRoom(p: Product, roomId: nat)
    requires p.groupPrice == Some(900) && p.maxParticipants == 3
    ensures var w0 := RoomWorld(FreshRoom, 5, map[]);
      var r1 := Join(roomId, p, w0, Some(1), 0);
      var r2 := Join(roomId, p, r1.world, Some(2), 1);
      var r3 := Join(roomId, p, r2.world, Some(3), 2);
      var early := Join(roomId, p, r3.world, Some(4), 3);
      var late := Join(roomId, p, r3.world, Some(4), 100);
      && r3.outcome == Joined(true)
      && r3.world.room == RoomState({1, 2, 3}, false, 2700)
      && r3.world.stock == 2
      && early.outcome == Joined(true) && early.world.room.participants == {1, 2, 3} && early.world.stock == 1
      && late.outcome == JoinRefused(Unavailable) && late.world.stock == 2
  {
    var cache := map[roomId := CacheEntry(true, 60)];
    var w0 := RoomWorld(FreshRoom, 5, map[]);
    var r1 := Join(roomId, p, w0, Some(1), 0);
    assert r1.world == RoomWorld(RoomState({1}, true, 900), 4, cache);
    var r2 := Join(roomId, p, r1.world, Some(2), 1);
    assert r2.world.room.participants == {1, 2} && |{1, 2}| == 2;
    assert r2.world == RoomWorld(RoomState({1, 2}, true, 1800), 3, cache);
    var r3 := Join(roomId, p, r2.world, Some(3), 2);
    assert r3.world.room.participants == {1, 2, 3} && |{1, 2, 3}| == 3;
    assert r3.outcome == Joined(true);
    assert r3.world == RoomWorld(RoomState({1, 2, 3}, false, 2700), 2, cache);
    FourthBuyerOfFullRoom(p, roomId);
  }

  /** The fourth buyer of the full room of `ThreeBuyersFillRoom`, before and after the cached answer expires. */
  lemma FourthBuyerOfFullRoom(p: Product, roomId: nat)
    requires p.groupPrice == Some(900) && p.maxParticipants == 3
    ensures var w3 := RoomWorld(RoomState({1, 2, 3}, false, 2700), 2, map[roomId := CacheEntry(true, 60)]);
      var early := Join(roomId, p, w3, Some(4), 3);
      var late := Join(roomId, p, w3, Some(4), 100);
      && early.outcome == Joined(true) && early.world.room.participants == {1, 2, 3} && early.world.stock == 1
      && late.outcome == JoinRefused(Unavailable) && late.world.stock == 2
  {
    var w3 := RoomWorld(RoomState({1, 2, 3}, false, 2700), 2, map[roomId := CacheEntry(true, 60)]);
    assert CachedAvailability(w3.cache, roomId, 3) == Some(true);
    assert CachedAvailability(w3.cache, roomId, 100).None?;
    assert |w3.room.participants| == 3;
  }

  // The room directory.

  /** Rooms listed newest first, by id. */
  predicate NewestFirst(rooms: seq<GroupPurchase>)
  {
    forall i, j :: 0 <= i < j < |rooms| ==> rooms[i].id >= rooms[j].id
  }

  function InsertNewestFirst(g: GroupPurchase, rooms: seq<GroupPurchase>): (r: seq<GroupPurchase>)
    requires NewestFirst(rooms)
    ensures |r| == |rooms| + 1
    ensures NewestFirst(r)
    ensures r[0] == g || (rooms != [] && r[0] == rooms[0])
  {
    if rooms == [] || rooms[0].id <= g.id then [g] + rooms
    else [rooms[0]] + InsertNewestFirst(g, rooms[1..])
  }

  lemma {:induction false} InsertNewestFirstContents(g: GroupPurchase, rooms: seq<GroupPurchase>)
    requires NewestFirst(rooms)
    ensures multiset(InsertNewestFirst(g, rooms)) == multiset(rooms) + multiset{g}
  {
    if rooms != [] && rooms[0].id > g.id {
      InsertNewestFirstContents(g, rooms[1..]);
      assert rooms == [rooms[0]] + rooms[1..];
    }
  }

  /** The public room list, newest first by id. */
  function PublicRoomsNewestFirst(rooms: seq<GroupPurchase>): (r: seq<GroupPurchase>)
    ensures NewestFirst(r)
  {
    if rooms == [] then []
    else
      var rest := PublicRoomsNewestFirst(rooms[1..]);
      if rooms[0].isPrivate then rest else InsertNewestFirst(rooms[0], rest)
  }

  /** The public room list holds exactly the rooms that are not private, each as often as it is stored. */
  lemma {:induction false} PublicRoomsContents(rooms: seq<GroupPurchase>)
    ensures forall g :: g in PublicRoomsNewestFirst(rooms) ==> g in rooms && !g.isPrivate
    ensures forall g :: g in rooms && !g.isPrivate ==>
              multiset(PublicRoomsNewestFirst(rooms))[g] == multiset(rooms)[g]
  {
    if rooms != [] {
      var rest := PublicRoomsNewestFirst(rooms[1..]);
      PublicRoomsContents(rooms[1..]);
      assert rooms == [rooms[0]] + rooms[1..];
      assert multiset(rooms) == multiset{rooms[0]} + multiset(rooms[1..]);
      if !rooms[0].isPrivate {
        InsertNewestFirstContents(rooms[0], rest);
        assert multiset(PublicRoomsNewestFirst(rooms)) == multiset(rest) + multiset{rooms[0]};
        forall g | g in PublicRoomsNewestFirst(rooms) ensures g in rooms && !g.isPrivate {
          assert g in multiset(PublicRoomsNewestFirst(rooms));
          assert g == rooms[0] || g in multiset(rest);
        }
      }
    }
  }

  /** No two stored rooms share an id. */
  predicate DistinctIds(rooms: seq<GroupPurchase>)
  {
    forall i, j :: 0 <= i < j < |rooms| ==> rooms[i].id != rooms[j].id
  }

  lemma {:induction false} DistinctIdsNoRepeats(rooms: seq<GroupPurchase>)
    requires DistinctIds(rooms)
    ensures forall g :: g in rooms ==> multiset(rooms)[g] == 1
  {
    if rooms != [] {
      var rest := rooms[1..];
      assert DistinctIds(rest) by {
        forall i, j | 0 <= i < j < |rest| ensures rest[i].id != rest[j].id {
          assert rest[i] == rooms[i + 1] && rest[j] == rooms[j + 1];
        }
      }
      DistinctIdsNoRepeats(rest);
      assert rooms == [rooms[0]] + rest;
      assert rooms[0] !in rest by {
        forall k | 0 <= k < |rest| ensures rest[k] != rooms[0] {
          assert rest[k] == rooms[k + 1];
        }
      }
      forall g | g in rooms ensures multiset(rooms)[g] == 1 {
        assert multiset(rooms)[g] == multiset{rooms[0]}[g] + multiset(rest)[g];
      }
    }
  }

  lemma RepeatCounts(s: seq<GroupPurchase>, i: nat, j: nat)
    requires i < j < |s| && s[i] == s[j]
    ensures multiset(s)[s[i]] >= 2
  {
    assert s == s[..j] + s[j..];
    assert s[i] in s[..j] && s[j] in s[j..];
    assert multiset(s)[s[i]] == multiset(s[..j])[s[i]] + multiset(s[j..])[s[i]];
  }

  /**
   * When ids are unique, as the rooms table's primary key makes them, ordering
   * by descending id is total: the public list is strictly decreasing by id.
   */
  lemma PublicRoomsStrictlyNewestFirst(rooms: seq<GroupPurchase>)
    requires DistinctIds(rooms)
    ensures forall i, j :: 0 <= i < j < |PublicRoomsNewestFirst(rooms)| ==>
              PublicRoomsNewestFirst(rooms)[i].id > PublicRoomsNewestFirst(rooms)[j].id
  {
    var r := PublicRoomsNewestFirst(rooms);
    PublicRoomsContents(rooms);
    DistinctIdsNoRepeats(rooms);
    forall i, j | 0 <= i < j < |r| ensures r[i].id > r[j].id {
      if r[i].id == r[j].id {
        assert r[i] in r && r[j] in r;
        var a :| 0 <= a < |rooms| && rooms[a] == r[i];
        var b :| 0 <= b < |rooms| && rooms[b] == r[j];
        assert a == b;
        RepeatCounts(r, i, j);
        assert false;
      }
    }
  }

  predicate IsOpenFor(g: GroupPurchase, p: Product)
    reads g
  {
    g.product == p && g.isActive
  }

  /**
   * The room offered for a product: the active room for it with the smallest
   * id, or none when it has no active room.
   */
  function FirstOpenRoom(rooms: seq<GroupPurchase>, p: Product): (r: Option<GroupPurchase>)
    reads rooms
    ensures r.None? <==> forall g :: g in rooms ==> !IsOpenFor(g, p)
    ensures r.Some? ==> r.value in rooms && IsOpenFor(r.value, p)
    ensures r.Some? ==> forall g :: g in rooms && IsOpenFor(g, p) ==> r.value.id <= g.id
  {
    if rooms == [] then None
    else
      var rest := FirstOpenRoom(rooms[1..], p);
      if !IsOpenFor(rooms[0], p) then rest
      else if rest.Some? && rest.value.id < rooms[0].id then rest
      else Some(rooms[0])
  }

  // The payment page.

  /**
   * The total shown on the payment page: the room's per-unit price times the
   * quantity for an order linked to a room, the list price times the quantity
   * otherwise.
   */
  function PaymentTotal(o: Order): (total: Cents)
    ensures o.groupPurchase.Some? ==> total == OrderPrice(Group, o.quantity, o.product)
    ensures o.groupPurchase.None? ==> total == OrderPrice(Individual, o.quantity, o.product)
  {
    if o.groupPurchase.Some? then GroupUnitPrice(o.product) * o.quantity else o.product.price * o.quantity
  }

  /** For an individual order the payment page shows the total the order was saved with. */
  lemma IndividualPaymentMatchesOrder(o: Order)
    requires o.groupPurchase.None? && o.orderType == Individual
    ensures PaymentTotal(o) == OrderPrice(o.orderType, o.quantity, o.product)
  {
  }

  /**
   * An order created by a join is linked to its room but has no type, so it is
   * saved at the list price while the payment page shows the group price; the
   * two differ whenever a non-zero group price differs from the list price.
   */
  lemma JoinOrderPaymentDiffers(o: Order)
    requires o.groupPurchase.Some? && o.orderType == Blank && o.quantity == 1
    requires o.product.groupPrice.Some? && o.product.groupPrice.value != 0
    requires o.product.groupPrice.value != o.product.price
    ensures OrderPrice(o.orderType, o.quantity, o.product) == o.product.price
    ensures PaymentTotal(o) == o.product.groupPrice.value
    ensures PaymentTotal(o) != OrderPrice(o.orderType, o.quantity, o.product)
  {
  }
}

=== FILE: wrappers.dfy ===
/** Optional values: a nullable model field or a lookup that may find nothing. */
module Wrappers {

  datatype Option<+T> = None | Some(value: T)
}
